=== FILE: README.md ===
# Repository Explorer: search and bookmark state, in Dafny

A model of the state logic of Repository Explorer, a browser app that searches
public GitHub repositories and keeps bookmarks in `localStorage`. There are three
parts:

- **Search service** (`searchRepositories`, module `GitHub`). A blank query gets an
  empty answer at once. Any other query builds the request URL (query, 30 per page,
  sorted by stars, descending). The outcome is then classified:
  - a 2xx response gives its parsed body;
  - status 403 gives the rate-limit message;
  - any other status gives "GitHub API error: " followed by the status text;
  - a thrown `Error` is passed on unchanged;
  - any other thrown value becomes "Failed to fetch repositories".
- **Search orchestrator** (`fetchRepositories` in the app component, module `Search`).
  It holds the results, the loading flag and the error. It changes when the debounced
  query changes and again when a request settles. Settlements are applied in the order
  they arrive; requests are not tagged with the query that sent them.
- **Bookmark store** (`useBookmarks`, module `Bookmarks`). This covers:
  - the stored value as JSON (`null`, scalars, objects whose `id`, `name` and
    `full_name` may be missing or of the wrong type, arrays, `{}`);
  - the one-time migration that clears an unusable stored value;
  - the memo that computes the bookmarked ids and writes back a list without its
    invalid entries;
  - the toggle, which removes by id or appends;
  - the `isBookmarked` query.
- **View composer** (the render of the app component, module `View`). It covers:
  - the displayed list;
  - the three empty-state conditions;
  - the count label;
  - the filter toggle;
  - the results section as the sequence of elements it renders.

Shared pieces:
- `Text`: ECMAScript `trim` over its whitespace set, decimal rendering of a count,
  and reading it back.
- `Lists`: `Array.prototype.filter` and `findIndex`, with their properties.

The `localStorage` slot and React's state are the fields of the `BookmarkStore` and
`SearchOrchestrator` classes. Their methods update those fields in place.

## Model

| member | source | states |
|---|---|---|
| Text.Trim | src/services/github.ts:15 | the result is the part of the input after its leading ECMAScript white space and before its trailing white space, and neither of its ends is white space |
| Text.Blank | src/App.tsx:24 | a query counts as empty after `trim` exactly when every character is white space |
| Text.NatToString | src/App.tsx:186 | the rendered count is non-empty, all decimal digits, and has no leading zero unless it is 0 |
| Text.DecimalRoundTrip | src/App.tsx:186 | reading the rendered count back as a decimal gives the count |
| Text.LeadingDigitsOfConcat | src/App.tsx:186-188 | a digit string followed by a non-digit has exactly that digit string as its leading digits |
| Lists.Filter | src/hooks/useBookmarks.ts:44-49 | every kept element passes the test |
| Lists.FilterMultiset | src/hooks/useBookmarks.ts:44-49 | the result is a sub-multiset of the input, and each passing element keeps its multiplicity |
| Lists.FilterIsSubsequence | src/hooks/useBookmarks.ts:44-49 | `filter` keeps the input order |
| Lists.FilterLength | src/hooks/useBookmarks.ts:52 | `filter` never makes the list longer |
| Lists.FilterKeepsAll | src/hooks/useBookmarks.ts:52 | when every element passes, `filter` returns the list unchanged |
| Lists.FilterDropsFailing | src/hooks/useBookmarks.ts:52 | when some element fails, the result is strictly shorter |
| Lists.FilterDropsNothingIff | src/hooks/useBookmarks.ts:52 | the lengths agree exactly when every element passes |
| Lists.FilterIdempotent | src/hooks/useBookmarks.ts:44-53 | filtering again changes nothing |
| Lists.FilterConcat | src/hooks/useBookmarks.ts:66 | filtering distributes over concatenation |
| Lists.FilterMembership | src/hooks/useBookmarks.ts:66 | an element is in the result exactly when it is in the input and passes |
| Lists.FindIndex | src/hooks/useBookmarks.ts:62 | -1 when no element matches, otherwise the first matching index |
| Lists.SubsequenceElements | src/hooks/useBookmarks.ts:66 | every element of a subsequence is an element of the whole |
| Bookmarks.AsRepository | src/hooks/useBookmarks.ts:82 | a valid stored entry is the entry of the repository it is read back as |
| Bookmarks.AsEntry | src/hooks/useBookmarks.ts:69 | a repository stored by the toggle is a valid entry with the same numeric id |
| Bookmarks.IsValid | src/hooks/useBookmarks.ts:44-49 | an entry that passes the validity test is an object carrying a numeric id, so the id lookups of the toggle can find it |
| Bookmarks.ValidEntries | src/hooks/useBookmarks.ts:44-49 | only entries that are set, with a number `id` and string `name` and `full_name`, are kept |
| Bookmarks.ValidEntriesSpec | src/hooks/useBookmarks.ts:44-53 | the valid entries keep their order and their multiplicity, are exactly the valid members, have the full length exactly when all are valid, are the list itself then, and filtering is idempotent |
| Bookmarks.AllValidNoNull | src/hooks/useBookmarks.ts:44-49 | a list of valid entries holds no `null`, so `findIndex` and `filter` on it cannot throw |
| Bookmarks.IdsOf | src/hooks/useBookmarks.ts:56 | an id is in the id set exactly when some entry has it |
| Bookmarks.BookmarkedIds | src/hooks/useBookmarks.ts:38-57 | the id set is empty for a non-array value; for an array it is exactly the ids of its valid entries |
| Bookmarks.BookmarkedIdsOfValid | src/hooks/useBookmarks.ts:38-57 | for a list of valid entries the id set is exactly the ids it contains |
| Bookmarks.Sanitized | src/hooks/useBookmarks.ts:44-54 | after the memo an array becomes exactly its valid entries (so in their original order and with their multiplicities), and the bookmarked id set is unchanged |
| Bookmarks.Dropped | src/hooks/useBookmarks.ts:52 | the memo writes back exactly when the value is an array with some invalid entry |
| Bookmarks.SanitizedSpec | src/hooks/useBookmarks.ts:51-54 | a value that is not written back is left as it is, and the written-back value would not be written back again |
| Bookmarks.IndexOfId | src/hooks/useBookmarks.ts:62 | with `HasId` as `repo.id === id`: the index is non-negative exactly when an entry with the id exists, and it points at one |
| Bookmarks.RemoveId | src/hooks/useBookmarks.ts:66 | no entry with the id survives, the order is kept, and every other entry keeps its multiplicity |
| Bookmarks.RemoveAbsentId | src/hooks/useBookmarks.ts:66 | removing an id that is not there changes nothing |
| Bookmarks.RemoveIdAppend | src/hooks/useBookmarks.ts:66-69 | removing an id from a list with one more entry is removing it from the list, plus that entry if it has another id |
| Bookmarks.SubsequenceUniqueIds | src/hooks/useBookmarks.ts:66 | a subsequence of a list with distinct ids has distinct ids |
| Bookmarks.Toggled | src/hooks/useBookmarks.ts:59-74 | the toggle never adds `null`, keeps a valid list valid, flips whether the id is present, and keeps ids distinct |
| Bookmarks.ToggleRemovesAll | src/hooks/useBookmarks.ts:64-66 | toggling a present id removes every entry with it, keeps the order and keeps every other entry |
| Bookmarks.ToggleAppends | src/hooks/useBookmarks.ts:67-69 | toggling an absent id appends the repository at the end |
| Bookmarks.ToggleTwiceRestores | src/hooks/useBookmarks.ts:59-74 | toggling an absent id twice restores the list |
| Bookmarks.ToggleTwiceMovesToEnd | src/hooks/useBookmarks.ts:59-74 | toggling a present id twice drops its entries and appends the repository at the end |
| Bookmarks.ToggledTimes | src/hooks/useBookmarks.ts:59-74 | repeated toggles never add `null` |
| Bookmarks.OddIsRemainder | src/hooks/useBookmarks.ts:59-74 | the parity predicate used by the toggle lemmas is the remainder modulo 2 |
| Bookmarks.ToggleParity | src/hooks/useBookmarks.ts:59-74 | from a list without the id, an odd number of toggles appends it once and an even number restores the list (stated both by the recursive parity and by `n % 2`) |
| Bookmarks.ToggleFlipsMembership | src/hooks/useBookmarks.ts:59-74 | after n toggles the id is present exactly when it was present and n is even, or absent and n is odd |
| Bookmarks.MigrationResets | src/hooks/useBookmarks.ts:20-34 | the stored value is kept exactly when the slot is empty or holds a non-empty array; anything unparsable, not an array, or an empty array is reset |
| Bookmarks.SlotAfterMigration | src/hooks/useBookmarks.ts:18-35 | a reset slot ends up holding `[]`; any other slot is left as it is |
| Bookmarks.MigrationIdempotent | src/hooks/useBookmarks.ts:18-35 | running the migration again changes nothing |
| Bookmarks.BookmarkStore.constructor | src/hooks/useBookmarks.ts:12-15 | the hook starts from the slot and the storage hook's initial value, which are separate parameters; the first render writes back that value without its invalid entries |
| Bookmarks.BookmarkStore.SetBookmarksData | src/hooks/useBookmarks.ts:12-15 | the new value becomes the state and is written to the slot |
| Bookmarks.BookmarkStore.Render | src/hooks/useBookmarks.ts:38-57 | the id set is the ids of the valid entries; an array with invalid entries is replaced by its valid entries in state and in the slot; otherwise nothing changes |
| Bookmarks.BookmarkStore.Migrate | src/hooks/useBookmarks.ts:18-35 | the slot becomes the migrated slot; the state becomes `[]` and the id set empty exactly when the stored value is reset |
| Bookmarks.BookmarkStore.Toggle | src/hooks/useBookmarks.ts:59-74 | the toggle throws exactly when the state is not an array, and then changes nothing; otherwise state and slot become the toggled list and the id flips in the id set |
| Bookmarks.BookmarkStore.IsBookmarked | src/hooks/useBookmarks.ts:76-78 | true exactly when the state is an array with an entry of that id |
| Bookmarks.BookmarkStore.Repositories | src/hooks/useBookmarks.ts:82 | the bookmarked repositories are the stored entries, in order; none for a non-array state |
| GitHub.SearchUrl.constructor | src/services/github.ts:23 | a new URL has the given path and no parameters |
| GitHub.SearchUrl.Append | src/services/github.ts:24-27 | a parameter is added after the existing ones |
| GitHub.BuildSearchUrl | src/services/github.ts:23-27 | the URL is the API base plus `/search/repositories`, with q, per_page=30, sort=stars, order=desc in that order |
| GitHub.Rethrown | src/services/github.ts:45-50 | a thrown `Error` keeps its message; anything else becomes "Failed to fetch repositories" |
| GitHub.StatusMessage | src/services/github.ts:36-41 | the rate-limit message exactly for status 403; for any other status the API-error prefix followed by the status text |
| GitHub.Classify | src/services/github.ts:29-50 | with `IsOkStatus` as `response.ok` (status 200 to 299): success exactly for an ok response whose body parses, giving that body; a failed status gives its status message; an ok response whose body cannot be read, or a rejected request, is rethrown |
| GitHub.RateLimitMessageSources | src/services/github.ts:36-49 | the request settles with the rate-limit message exactly for a 403 response or for a rethrown `Error` that already carried that message |
| GitHub.SearchRepositories | src/services/github.ts:12-51 | a blank query answers the empty response and sends nothing; otherwise the four parameters are sent and the outcome is classified |
| Search.Started | src/App.tsx:24-31 | a query change always clears the error; a blank one clears the results and leaves the loading flag; any other sets the loading flag and keeps the results |
| Search.Settled | src/App.tsx:33-43 | a settlement always clears the loading flag; a success replaces the results and leaves the error as it was; a failure clears the results and sets the error |
| Search.Step | src/App.tsx:22-47 | a query change leaves no error, a settlement leaves no loading, and neither sets an error while loading |
| Search.Run | src/App.tsx:22-47 | whatever events happen, in whatever order requests settle, an error is never set while the loading flag is |
| Search.SequentialFetch | src/App.tsx:30-43 | a request that completes alone ends with its items and no error, or no items and its error, and not loading |
| Search.RunEndingInSettlement | src/App.tsx:41-43 | after any settlement the loading flag is false |
| Search.StaleResponseWins | src/App.tsx:33-35 | when two requests are sent and the first settles after the second, its items replace the second's |
| Search.QueryThenBlank | src/App.tsx:24-31 | a query followed by a blank query leaves no results and no error but the loading flag set |
| Search.BlankQueryDoesNotCancel | src/App.tsx:24-35 | clearing the query does not cancel the request in flight, whose items are shown when it settles |
| Search.OverlappingRequests | src/App.tsx:36-43 | the first settlement clears the loading flag while another request is in flight; a failure then a success leaves the error beside the results |
| Search.SearchOrchestrator.constructor | src/App.tsx:14-16 | no results, not loading, no error |
| Search.SearchOrchestrator.Start | src/App.tsx:24-31 | a request goes out exactly when the query is not blank; the state becomes the state before the `await` |
| Search.SearchOrchestrator.Finish | src/App.tsx:35-43 | the state becomes the settled state: the items, or the error with no items, and not loading |
| Search.SearchOrchestrator.FetchRepositories | src/App.tsx:22-47 | a blank query clears results and error; otherwise loading ends false with the classified items and no error, or no items and the classified error |
| View.FilteredRepositories | src/App.tsx:50-56 | bookmarked mode displays all bookmarks, whatever the search; the search view displays the search results |
| View.ShouldShowBookmarkedEmpty | src/App.tsx:69-73 | the no-bookmarks message is chosen exactly in bookmarked mode, not loading, with no bookmarks and some search results |
| View.ShouldShowSearchEmpty | src/App.tsx:76-80 | the no-results message is chosen exactly when not loading, the query has a visible character, there are no results and no error is shown (`ErrorShown`: `error` is truthy, so an empty message counts as none) |
| View.ShouldShowInitialState | src/App.tsx:83-84 | the initial prompt is chosen exactly when not loading, the query is all white space and there are no results |
| View.ShowFilterToggle | src/App.tsx:142 | the filter toggle is shown exactly when there are search results or bookmarks |
| View.CountLabel | src/App.tsx:186-188 | the label starts with the rendered count followed by a space |
| View.EmptyStates | src/App.tsx:161-180 | each of the three messages (initial prompt, no results, no bookmarks) is rendered exactly when its own condition holds, nothing is rendered when none holds, and at most one message appears |
| View.Listing | src/App.tsx:182-197 | the list is rendered exactly when the displayed list is non-empty, together with nothing but the count line |
| View.Results | src/App.tsx:152-200 | the spinner is rendered exactly while loading, and a shown error comes first |
| View.EmptyStatesExclusive | src/App.tsx:69-84 | no two of the three empty-state conditions hold together |
| View.CountLabelNumber | src/App.tsx:186-188 | the label starts with the count, and reading those digits back gives the count |
| View.CountLabelSuffix | src/App.tsx:186-188 | the label ends in " (bookmarked)" exactly in bookmarked mode; in both modes the word reads "result" for one item and "results" otherwise |
| View.ListImpliesToggle | src/App.tsx:142-148 | whenever the list is rendered, so is the filter toggle |
| View.ResultsOnError | src/App.tsx:153-155 | with an error set, only the error message is rendered |
| View.ResultsWhileLoading | src/App.tsx:157 | while loading, only the spinner is rendered |
| View.ResultsErrorMessage | src/App.tsx:152-158 | the error message is rendered exactly when an error is shown |
| View.ResultsEmptyStateMessages | src/App.tsx:152-179 | the initial prompt, the no-results message and the no-bookmarks message are each rendered exactly when no error is shown and their own condition holds |
| View.ResultsListing | src/App.tsx:159-199 | the count and the list are rendered exactly when not loading, no error is shown and the displayed list is non-empty; they come last, and the label counts the displayed list |
| View.ListingComesLast | src/App.tsx:182-197 | after the empty-state messages, the list is rendered exactly when the displayed list is non-empty, as the last element after its count line |
| View.InitialPromptBesideBookmarks | src/App.tsx:161-196 | in bookmarked mode with a blank query and no search results, the initial prompt and the bookmark list are both rendered |
| View.BlankQueryShowsPrompt | src/App.tsx:161-166 | after a blank query, when not loading, the search view shows only the initial prompt |
| View.TwoResultsShown | src/App.tsx:182-196 | a search that settles with two items renders "2 results" and both items |
| View.NoBookmarksMessageSelected | src/App.tsx:175-180 | bookmarked mode with no bookmarks after a search with results renders only the no-bookmarks message |

## Left out

- The network, `URL` and `JSON`. The outcome of `fetch` and `response.json()` is a parameter (`GitHub.Outcome`). The URL is kept as its path and ordered parameter list, without percent-encoding. The request header is not modelled.
- `useLocalStorage`. It is not part of this model. `setBookmarksData` is modelled as setting the state and writing the same value to the slot.
- The 300 ms debounce (`useDebounce`). Its output is an event `QueryChanged` in `Search.Run`; timers are not modelled.
- React's scheduling: renders, effect ordering, memo caching and batching. `Render` is the memo of one render, and the events of `Search.Run` are applied one at a time in arrival order.
- Logging (`console.log`, `console.warn`).
- The presentational components (cards, spinner, icons, styles). The view stops at the element sequence `View.Results`.
- The storage key `github-repo-bookmarks`: the model has one slot, which stands for that key.
- Bookmarks.BookmarkStore.constructor: the value `useLocalStorage` starts from is a parameter, not derived from the slot, because `useLocalStorage` is not part of this model.
- Bookmarks.BookmarkStore.Toggle: a `findIndex` on a non-array state throws inside the updater. The model reports this as `threw` and leaves the state unchanged; what React then does with the error is not modelled.
- Bookmarks.BookmarkStore.Repositories: the app passes `bookmarksData` to the view as it is. The model reads it only after a render, when every entry is valid, and reads a non-array value as no bookmarks. In the app, a non-array such as `{}` has no `length`, so its comparisons at `src/App.tsx` lines 72, 142 and 182 are false; only `null` would throw.
- Numbers are unbounded integers. `NaN`, fractions and infinities as ids are not modelled. Type checks cover only `id`, `name` and `full_name`, as the hook's filter does.
- Bookmarks.Toggled: requires a list without `null`. On a `null` entry, `repo.id` throws; the store method covers that case through `Bookmarks.BookmarkStore.Toggle`'s precondition `Valid()`, which keeps the state free of invalid entries after each render.
- The component's filter-mode and query input state, which are plain parameters of the view functions.

Three behaviours of the code are worth knowing:
- There is no stale-response guard. A late response replaces newer results (`Search.StaleResponseWins`), and a blank query does not cancel a request in flight (`Search.BlankQueryDoesNotCancel`).
- The migration clears only an unreadable value, a non-array, or an empty array. It keeps an array with invalid elements. Those are dropped later, by the memo (`Bookmarks.Dropped`, `Bookmarks.Sanitized`).
- Several parts of the results section can render together. The initial prompt can be rendered above the bookmark list (`View.InitialPromptBesideBookmarks`).

=== FILE: bookmarks.dfy ===
/**
 * The bookmark store (`useBookmarks`): an ordered list of repository records
 * kept in one browser-storage slot, the validity filter that purges entries
 * that are not repository records, the id set behind `isBookmarked`, the
 * toggle, and the one-time migration of data left by older versions.
 */
module Bookmarks {
  import opened Lists
  import opened Repositories

  /** A property of a stored JSON object, as `typeof` sees it. */
  datatype Field = Undefined | Number(n: int) | Str(s: string) | OtherField

  /**
   * An element of the stored JSON array. Property access on `Null` throws;
   * on a `Scalar` (number, string, boolean) it gives `undefined`.
   */
  datatype Entry = Null | Scalar | Object(id: Field, name: Field, fullName: Field, details: Details)

  /** A parsed JSON value: an array, the empty object an older version stored, or anything else. */
  datatype Data = Array(entries: seq<Entry>) | EmptyObject | OtherJson

  /** The storage slot under the bookmarks key: nothing (or ""), text that is not JSON, or a parsed value. */
  datatype Slot = Absent | Unparsable | Holds(value: Data)

  /** The validity test: an object with a numeric `id`, a string `name` and a string `full_name`. */
  function IsValid(e: Entry): (v: bool)
    ensures v ==> exists id :: HasId(e, id)
  {
    if e.Object? && e.id.Number? && e.name.Str? && e.fullName.Str? then
      assert HasId(e, e.id.n);
      true
    else false
  }

  predicate AllValid(s: seq<Entry>) {
    forall i :: 0 <= i < |s| ==> IsValid(s[i])
  }

  /** No element is `null`, so reading `.id` of every element does not throw. */
  predicate NoNull(s: seq<Entry>) {
    forall i :: 0 <= i < |s| ==> !s[i].Null?
  }

  /** A repository as it is stored. */
  function AsEntry(r: Repository): (e: Entry)
    ensures IsValid(e) && e.id == Number(r.id)
  {
    Object(Number(r.id), Str(r.name), Str(r.fullName), r.details)
  }

  /** A valid entry read back as a repository; the inverse of `AsEntry`. */
  function AsRepository(e: Entry): (r: Repository)
    requires IsValid(e)
    ensures AsEntry(r) == e
  {
    Repository(e.id.n, e.name.s, e.fullName.s, e.details)
  }

  /** `repo.id === id` for an element that is not `null`. */
  predicate HasId(e: Entry, id: int) {
    e.Object? && e.id == Number(id)
  }

  /** Some element carries the id. */
  predicate Contains(s: seq<Entry>, id: int) {
    exists e :: e in s && HasId(e, id)
  }

  /** No two elements carry the same id. */
  ghost predicate UniqueIds(s: seq<Entry>) {
    forall i, j, id :: 0 <= i < j < |s| && HasId(s[i], id) ==> !HasId(s[j], id)
  }

  /** For an array of valid entries the id set is the set of ids the entries carry. */
  lemma BookmarkedIdsOfValid(s: seq<Entry>)
    requires AllValid(s)
    ensures forall id :: id in BookmarkedIds(Array(s)) <==> Contains(s, id)
  {
    forall id ensures id in BookmarkedIds(Array(s)) <==> Contains(s, id) {
      if Contains(s, id) {
        var e :| e in s && HasId(e, id);
        var i :| 0 <= i < |s| && s[i] == e;
        assert IsValid(e);
      }
    }
  }

  lemma AllValidNoNull(s: seq<Entry>)
    requires AllValid(s)
    ensures NoNull(s)
  {
  }

  // ---------------------------------------------------------------------------
  // The validity filter and the id set (the `bookmarkedIds` memo)
  // ---------------------------------------------------------------------------

  /** The valid entries, in their stored order. */
  function ValidEntries(s: seq<Entry>): (r: seq<Entry>)
    ensures AllValid(r)
  {
    Filter(s, IsValid)
  }

  /**
   * The filter keeps exactly the valid entries, in order, and leaves the list
   * as it is exactly when nothing was invalid.
   */
  lemma ValidEntriesSpec(s: seq<Entry>)
    ensures IsSubsequence(ValidEntries(s), s)
    ensures forall e :: e in ValidEntries(s) <==> e in s && IsValid(e)
    ensures forall e | e in s && IsValid(e) :: multiset(ValidEntries(s))[e] == multiset(s)[e]
    ensures |ValidEntries(s)| == |s| <==> AllValid(s)
    ensures AllValid(s) ==> ValidEntries(s) == s
    ensures ValidEntries(ValidEntries(s)) == ValidEntries(s)
  {
    FilterIsSubsequence(s, IsValid);
    FilterMultiset(s, IsValid);
    forall e ensures e in ValidEntries(s) <==> e in s && IsValid(e) {
      FilterMembership(s, IsValid, e);
    }
    FilterDropsNothingIff(s, IsValid);
    if AllValid(s) {
      FilterKeepsAll(s, IsValid);
    }
    FilterIdempotent(s, IsValid);
  }

  /** `new Set(valid.map(repo => repo.id))`. */
  function IdsOf(s: seq<Entry>): (ids: set<int>)
    requires AllValid(s)
    ensures forall id :: id in ids <==> Contains(s, id)
  {
    if s == [] then {}
    else
      assert forall id :: Contains(s, id) <==> id == s[0].id.n || Contains(s[1..], id) by {
        forall id ensures Contains(s, id) <==> id == s[0].id.n || Contains(s[1..], id) {
          if Contains(s, id) {
            var e :| e in s && HasId(e, id);
            if e != s[0] { assert e in s[1..]; }
          }
          if id == s[0].id.n { assert s[0] in s && HasId(s[0], id); }
          if Contains(s[1..], id) {
            var e :| e in s[1..] && HasId(e, id);
            assert e in s;
          }
        }
      }
      {s[0].id.n} + IdsOf(s[1..])
  }

  /** The id set: the ids of the valid entries of an array, and nothing for any other value. */
  function BookmarkedIds(d: Data): (ids: set<int>)
    ensures !d.Array? ==> ids == {}
    ensures d.Array? ==> forall id :: id in ids <==> exists e :: e in d.entries && IsValid(e) && HasId(e, id)
  {
    if d.Array? then
      ValidEntriesSpec(d.entries);
      IdsOf(ValidEntries(d.entries))
    else {}
  }

  /** The value after the memo's write-back: an array keeps only its valid entries. */
  function Sanitized(d: Data): (t: Data)
    ensures t.Array? <==> d.Array?
    ensures t.Array? ==> AllValid(t.entries) && IsSubsequence(t.entries, d.entries)
    ensures t.Array? ==> t.entries == ValidEntries(d.entries)
    ensures BookmarkedIds(t) == BookmarkedIds(d)
  {
    if d.Array? then
      ValidEntriesSpec(d.entries);
      ValidEntriesSpec(ValidEntries(d.entries));
      Array(ValidEntries(d.entries))
    else d
  }

  /** The memo writes the value back: some element of the array was dropped. */
  function Dropped(d: Data): (b: bool)
    ensures b <==> d.Array? && !AllValid(d.entries)
  {
    if d.Array? then
      ValidEntriesSpec(d.entries);
      |ValidEntries(d.entries)| != |d.entries|
    else false
  }

  /**
   * A value the memo does not rewrite is left as it is, and a rewritten value
   * would not be rewritten again.
   */
  lemma SanitizedSpec(d: Data)
    ensures !Dropped(d) ==> Sanitized(d) == d
    ensures !Dropped(Sanitized(d)) && Sanitized(Sanitized(d)) == Sanitized(d)
  {
    if d.Array? {
      ValidEntriesSpec(d.entries);
      ValidEntriesSpec(ValidEntries(d.entries));
    }
  }

  // ---------------------------------------------------------------------------
  // Toggle (the `setBookmarksData` updater of `toggleBookmark`)
  // ---------------------------------------------------------------------------

  /** `prev.findIndex(repo => repo.id === id)`: non-negative exactly when some element has the id. */
  function IndexOfId(s: seq<Entry>, id: int): (k: int)
    ensures -1 <= k < |s|
    ensures 0 <= k <==> Contains(s, id)
    ensures 0 <= k ==> HasId(s[k], id)
  {
    var k := FindIndex(s, (e: Entry) => HasId(e, id));
    assert 0 <= k ==> s[k] in s;
    k
  }

  /** `prev.filter(repo => repo.id !== id)`. */
  function RemoveId(s: seq<Entry>, id: int): (r: seq<Entry>)
    ensures forall i :: 0 <= i < |r| ==> !HasId(r[i], id)
    ensures multiset(r) <= multiset(s)
    ensures forall e | e in s && !HasId(e, id) :: multiset(r)[e] == multiset(s)[e]
    ensures IsSubsequence(r, s)
  {
    FilterIsSubsequence(s, (e: Entry) => !HasId(e, id));
    FilterMultiset(s, (e: Entry) => !HasId(e, id));
    Filter(s, (e: Entry) => !HasId(e, id))
  }

  /** Removing an id that no element has changes nothing. */
  lemma RemoveAbsentId(s: seq<Entry>, id: int)
    requires !Contains(s, id)
    ensures RemoveId(s, id) == s
  {
    FilterKeepsAll(s, (e: Entry) => !HasId(e, id));
  }

  /** Removing an id from a list with one more element at the end. */
  lemma RemoveIdAppend(s: seq<Entry>, e: Entry, id: int)
    ensures RemoveId(s + [e], id) == RemoveId(s, id) + (if HasId(e, id) then [] else [e])
  {
    FilterConcat(s, [e], (e: Entry) => !HasId(e, id));
  }

  /** The elements of a subsequence of a list without repeated ids have no repeated ids. */
  lemma {:induction false} SubsequenceUniqueIds(a: seq<Entry>, b: seq<Entry>)
    requires IsSubsequence(a, b) && UniqueIds(b)
    ensures UniqueIds(a)
  {
    if a != [] && b != [] {
      assert UniqueIds(b[1..]) by {
        forall i, j, id | 0 <= i < j < |b[1..]| && HasId(b[1..][i], id)
          ensures !HasId(b[1..][j], id)
        {
          assert b[1..][i] == b[i + 1] && b[1..][j] == b[j + 1];
        }
      }
      if a[0] == b[0] {
        SubsequenceUniqueIds(a[1..], b[1..]);
        SubsequenceElements(a[1..], b[1..]);
        forall i, j, id | 0 <= i < j < |a| && HasId(a[i], id) ensures !HasId(a[j], id) {
          if i == 0 {
            assert a[j] == a[1..][j - 1];
            assert a[j] in a[1..];
            assert a[j] in b[1..];
            var k :| 0 <= k < |b[1..]| && b[1..][k] == a[j];
            assert b[k + 1] == a[j];
          } else {
            assert a[i] == a[1..][i - 1] && a[j] == a[1..][j - 1];
          }
        }
      } else {
        SubsequenceUniqueIds(a, b[1..]);
      }
    }
  }

  /**
   * `toggleBookmark`'s updater: if some element has the record's id, every
   * element with that id is removed; otherwise the record is appended.
   * Defined where reading `.id` does not throw, that is on lists without `null`.
   */
  function Toggled(prev: seq<Entry>, r: Repository): (next: seq<Entry>)
    requires NoNull(prev)
    ensures NoNull(next)
    ensures AllValid(prev) ==> AllValid(next)
    ensures Contains(next, r.id) <==> !Contains(prev, r.id)
    ensures UniqueIds(prev) ==> UniqueIds(next)
  {
    if IndexOfId(prev, r.id) >= 0 then
      var next := RemoveId(prev, r.id);
      assert forall e :: e in next ==> e in prev by {
        forall e | e in next ensures e in prev {
          assert e in multiset(next);
        }
      }
      assert UniqueIds(prev) ==> UniqueIds(next) by {
        if UniqueIds(prev) { SubsequenceUniqueIds(next, prev); }
      }
      next
    else
      assert AsEntry(r) in prev + [AsEntry(r)];
      prev + [AsEntry(r)]
  }

  /**
   * Toggling an id that is present removes every element with that id and
   * keeps every other element, with its multiplicity and in its order.
   */
  lemma ToggleRemovesAll(prev: seq<Entry>, r: Repository)
    requires NoNull(prev) && Contains(prev, r.id)
    ensures !Contains(Toggled(prev, r), r.id)
    ensures IsSubsequence(Toggled(prev, r), prev)
    ensures forall e | e in prev && !HasId(e, r.id) :: multiset(Toggled(prev, r))[e] == multiset(prev)[e]
  {
  }

  /** Toggling an id that is absent appends the record and changes nothing else. */
  lemma ToggleAppends(prev: seq<Entry>, r: Repository)
    requires NoNull(prev) && !Contains(prev, r.id)
    ensures Toggled(prev, r) == prev + [AsEntry(r)]
  {
  }

  /** Toggling a record twice, from a list without its id, gives the list back. */
  lemma ToggleTwiceRestores(prev: seq<Entry>, r: Repository)
    requires NoNull(prev) && !Contains(prev, r.id)
    ensures Toggled(Toggled(prev, r), r) == prev
  {
    RemoveIdAppend(prev, AsEntry(r), r.id);
    RemoveAbsentId(prev, r.id);
  }

  /**
   * Toggling a record twice, from a list that has its id, does not give the
   * list back: the copies are gone and the record sits at the end.
   */
  lemma ToggleTwiceMovesToEnd(prev: seq<Entry>, r: Repository)
    requires NoNull(prev) && Contains(prev, r.id)
    ensures Toggled(Toggled(prev, r), r) == RemoveId(prev, r.id) + [AsEntry(r)]
  {
  }

  /** The list after `n` toggles of the same record. */
  function ToggledTimes(prev: seq<Entry>, r: Repository, n: nat): (s: seq<Entry>)
    requires NoNull(prev)
    ensures NoNull(s)
  {
    if n == 0 then prev else Toggled(ToggledTimes(prev, r, n - 1), r)
  }

  /** `n` is odd, counted down one toggle at a time. */
  predicate Odd(n: nat) {
    n > 0 && !Odd(n - 1)
  }

  /** The recursive parity is the remainder modulo 2. */
  lemma {:induction false} OddIsRemainder(n: nat)
    ensures Odd(n) <==> n % 2 == 1
  {
    if n > 0 {
      OddIsRemainder(n - 1);
    }
  }

  /**
   * From a list without the record's id, an even number of toggles gives the
   * list back and an odd number gives it with the record appended.
   */
  lemma {:induction false} ToggleParity(prev: seq<Entry>, r: Repository, n: nat)
    requires NoNull(prev) && !Contains(prev, r.id)
    ensures ToggledTimes(prev, r, n) == if Odd(n) then prev + [AsEntry(r)] else prev
    ensures ToggledTimes(prev, r, n) == if n % 2 == 1 then prev + [AsEntry(r)] else prev
  {
    OddIsRemainder(n);
    if n > 0 {
      ToggleParity(prev, r, n - 1);
      if Odd(n - 1) {
        ToggleTwiceRestores(prev, r);
      } else {
        ToggleAppends(prev, r);
      }
    }
  }

  /**
   * Whatever the list, the id is present after `n` toggles exactly when it
   * was absent before and `n` is odd, or present before and `n` is even.
   */
  lemma {:induction false} ToggleFlipsMembership(prev: seq<Entry>, r: Repository, n: nat)
    requires NoNull(prev)
    ensures Contains(ToggledTimes(prev, r, n), r.id) <==> (Contains(prev, r.id) <==> !Odd(n))
    ensures Contains(ToggledTimes(prev, r, n), r.id) <==> (Contains(prev, r.id) <==> n % 2 == 0)
  {
    OddIsRemainder(n);
    if n > 0 {
      ToggleFlipsMembership(prev, r, n - 1);
    }
  }

  // ---------------------------------------------------------------------------
  // The one-time migration
  // ---------------------------------------------------------------------------

  /**
   * The migration clears the slot when its text does not parse, when the parsed
   * value is not an array, or when it has no keys, which for an array means
   * that it is empty.
   */
  function MigrationResets(s: Slot): (b: bool)
    ensures !b <==> s.Absent? || (s.Holds? && s.value.Array? && |s.value.entries| > 0)
  {
    || s.Unparsable?
    || (s.Holds? && (!s.value.Array? || s.value.entries == []))
  }

  /** The slot after the migration: cleared slots end up holding `[]`. */
  function SlotAfterMigration(s: Slot): (t: Slot)
    ensures t == Absent || (t.Holds? && t.value.Array?)
    ensures s.Holds? && s.value.Array? ==> t == s
    ensures !MigrationResets(s) ==> t == s
    ensures MigrationResets(s) ==> t == Holds(Array([]))
  {
    if MigrationResets(s) then Holds(Array([])) else s
  }

  /** Running the migration a second time changes nothing. */
  lemma MigrationIdempotent(s: Slot)
    ensures SlotAfterMigration(SlotAfterMigration(s)) == SlotAfterMigration(s)
  {
  }

  // ---------------------------------------------------------------------------
  // The store
  // ---------------------------------------------------------------------------

  /**
   * The hook's state: the storage slot, the hook's value `bookmarksData`, and
   * the memoised id set. Every method ends as a render ends, with the id set
   * recomputed from the value.
   */
  class BookmarkStore {
    var slot: Slot
    var data: Data
    var ids: set<int>

    /** The id set belongs to the value, and an array value holds only valid entries. */
    ghost predicate Valid()
      reads this
    {
      && ids == BookmarkedIds(data)
      && (data.Array? ==> AllValid(data.entries))
    }

    /** The first render, from the stored slot and the value the storage hook starts with. */
    constructor (stored: Slot, initial: Data)
      ensures Valid()
      ensures data == Sanitized(initial)
      ensures slot == if Dropped(initial) then Holds(Sanitized(initial)) else stored
    {
      slot := stored;
      data := initial;
      ids := {};
      new;
      Render();
    }

    /** `setBookmarksData`: sets the value and writes it through to the slot. */
    method SetBookmarksData(d: Data)
      modifies this`slot, this`data
      ensures data == d && slot == Holds(d)
    {
      data := d;
      slot := Holds(d);
    }

    /**
     * The `bookmarkedIds` memo: recomputes the id set and, when some array
     * element was invalid, writes back the valid ones.
     */
    method Render()
      modifies this`slot, this`data, this`ids
      ensures Valid()
      ensures ids == BookmarkedIds(old(data))
      ensures data == Sanitized(old(data))
      ensures slot == if Dropped(old(data)) then Holds(Sanitized(old(data))) else old(slot)
    {
      SanitizedSpec(data);
      if !data.Array? {
        ids := {};
        return;
      }
      var valid := ValidEntries(data.entries);
      if |valid| != |data.entries| {
        SetBookmarksData(Array(valid));
      }
      ids := IdsOf(valid);
    }

    /**
     * The migration effect: when the slot is unparsable, not an array, or an
     * empty array, the slot is removed and the value set to `[]`.
     */
    method Migrate()
      requires Valid()
      modifies this
      ensures Valid()
      ensures slot == SlotAfterMigration(old(slot))
      ensures data == if MigrationResets(old(slot)) then Array([]) else old(data)
      ensures MigrationResets(old(slot)) ==> ids == {}
    {
      var reset := match slot
        case Absent => false
        case Unparsable => true
        case Holds(v) => !v.Array? || |v.entries| == 0;
      if reset {
        slot := Absent;
        SetBookmarksData(Array([]));
        Render();
      }
    }

    /**
     * `toggleBookmark`. The updater throws when the value is not an array
     * (`findIndex` is not a function); the state is then left as it was.
     * Otherwise the toggled list becomes the value and the slot.
     */
    method Toggle(r: Repository) returns (threw: bool)
      requires Valid()
      modifies this
      ensures Valid()
      ensures threw <==> !old(data).Array?
      ensures threw ==> data == old(data) && slot == old(slot) && ids == old(ids)
      ensures !threw ==> data == Array(Toggled(old(data).entries, r)) && slot == Holds(data)
      ensures !threw ==> (r.id in ids <==> r.id !in old(ids))
    {
      if !data.Array? {
        return true;
      }
      var prev := data.entries;
      AllValidNoNull(prev);
      var next := Toggled(prev, r);
      BookmarkedIdsOfValid(prev);
      BookmarkedIdsOfValid(next);
      SanitizedSpec(Array(next));
      assert !Dropped(Array(next)) && Sanitized(Array(next)) == Array(next);
      SetBookmarksData(Array(next));
      Render();
      threw := false;
    }

    /** `isBookmarked(id)`: the id belongs to some stored repository. */
    method IsBookmarked(id: int) returns (b: bool)
      requires Valid()
      ensures b <==> data.Array? && Contains(data.entries, id)
    {
      b := id in ids;
    }

    /** `bookmarkedRepositories`, read as repositories; empty while the value is not an array. */
    function Repositories(): (rs: seq<Repository>)
      reads this
      requires Valid()
      ensures data.Array? ==> |rs| == |data.entries| && forall i :: 0 <= i < |rs| ==> AsEntry(rs[i]) == data.entries[i]
      ensures !data.Array? ==> rs == []
    {
      if data.Array? then
        var es := data.entries;
        seq(|es|, i requires 0 <= i < |es| => AsRepository(es[i]))
      else []
    }
  }
}

=== FILE: github.dfy ===
/**
 * The search request and the classification of its outcome
 * (`searchRepositories`). The network is not modelled: the caller passes
 * the outcome `fetch` and `response.json()` would produce.
 */
module GitHub {
  import opened Wrappers
  import opened Text
  import opened Repositories

  const ApiBase := "https://api.github.com"
  const SearchPath := "/search/repositories"
  /** The page size asked for. */
  const MaxResults: nat := 30

  const RateLimitMessage := "Rate limit exceeded. Please try again later."
  const ApiErrorPrefix := "GitHub API error: "
  const FetchFailedMessage := "Failed to fetch repositories"

  /** What a rejected promise carries: an `Error` with its message, or any other value. */
  datatype Thrown = ErrorObject(message: string) | NonError

  /** What `response.json()` gives: the parsed body, or a rejection. */
  datatype Body = Parsed(data: SearchResponse) | Unreadable(reason: Thrown)

  /** What `fetch` gives: a response with status and status text, or a rejection. */
  datatype Outcome = Response(status: int, statusText: string, body: Body) | Rejected(reason: Thrown)

  /** The answer to a blank query. */
  const EmptyResponse := SearchResponse(0, false, [])

  /** `response.ok`: the status is in the 2xx range. */
  predicate IsOkStatus(status: int) {
    200 <= status <= 299
  }

  /** The query string of the request, parameter by parameter. */
  class SearchUrl {
    const path: string
    var params: seq<(string, string)>

    constructor (path: string)
      ensures this.path == path && params == []
    {
      this.path := path;
      params := [];
    }

    /** `searchParams.append`: adds one parameter after the others. */
    method Append(name: string, value: string)
      modifies this
      ensures params == old(params) + [(name, value)]
    {
      params := params + [(name, value)];
    }
  }

  /** Builds the request URL: the query, the page size, sort by stars, descending. */
  method BuildSearchUrl(query: string) returns (url: SearchUrl)
    ensures fresh(url) && url.path == ApiBase + SearchPath
    ensures url.params == [("q", query), ("per_page", "30"), ("sort", "stars"), ("order", "desc")]
  {
    url := new SearchUrl(ApiBase + SearchPath);
    url.Append("q", query);
    assert NatToString(MaxResults) == "30";
    url.Append("per_page", NatToString(MaxResults));
    url.Append("sort", "stars");
    url.Append("order", "desc");
  }

  /** The `catch` clause: an `Error` is re-thrown as it is, anything else becomes the fallback. */
  function Rethrown(t: Thrown): (message: string)
    ensures t.NonError? ==> message == FetchFailedMessage
    ensures t.ErrorObject? ==> message == t.message
  {
    match t
    case ErrorObject(m) => m
    case NonError => FetchFailedMessage
  }

  /** The message thrown for a response whose status is not in the 2xx range. */
  function StatusMessage(status: int, statusText: string): (m: string)
    ensures m == RateLimitMessage <==> status == 403
    ensures status != 403 ==>
      |m| >= |ApiErrorPrefix| && m[..|ApiErrorPrefix|] == ApiErrorPrefix && m[|ApiErrorPrefix|..] == statusText
  {
    if status == 403 then RateLimitMessage
    else
      var m := ApiErrorPrefix + statusText;
      assert m[0] == 'G' != RateLimitMessage[0];
      m
  }

  /** What the request settles to once `fetch` and `response.json()` have produced `o`. */
  function Classify(o: Outcome): (r: Result<SearchResponse, string>)
    ensures r.Ok? <==> o.Response? && IsOkStatus(o.status) && o.body.Parsed?
    ensures r.Ok? ==> r.value == o.body.data
    ensures o.Response? && !IsOkStatus(o.status) ==> r == Err(StatusMessage(o.status, o.statusText))
    ensures o.Response? && IsOkStatus(o.status) && o.body.Unreadable? ==> r == Err(Rethrown(o.body.reason))
    ensures o.Rejected? ==> r == Err(Rethrown(o.reason))
  {
    match o
    case Rejected(t) => Err(Rethrown(t))
    case Response(status, text, body) =>
      if !IsOkStatus(status) then Err(StatusMessage(status, text))
      else
        match body
        case Parsed(data) => Ok(data)
        case Unreadable(t) => Err(Rethrown(t))
  }

  /**
   * The rate-limit message reaches the caller only from a 403 response, or
   * from an `Error` that already carried that message and was rethrown.
   */
  lemma RateLimitMessageSources(o: Outcome)
    ensures Classify(o) == Err(RateLimitMessage) <==>
      || (o.Response? && o.status == 403)
      || (o.Response? && IsOkStatus(o.status) && o.body == Unreadable(ErrorObject(RateLimitMessage)))
      || o == Rejected(ErrorObject(RateLimitMessage))
  {
    assert FetchFailedMessage[0] != RateLimitMessage[0];
  }

  /**
   * `searchRepositories(query)`. A blank query settles at once to the empty
   * response and sends nothing (`request` is `None`); any other query sends
   * the request whose parameters are returned, and settles as `Classify`
   * says of the outcome `network`.
   */
  method SearchRepositories(query: string, network: Outcome)
    returns (r: Result<SearchResponse, string>, request: Option<seq<(string, string)>>)
    ensures Blank(query) ==> r == Ok(EmptyResponse) && request == None
    ensures !Blank(query) ==>
      && request == Some([("q", query), ("per_page", "30"), ("sort", "stars"), ("order", "desc")])
      && r == Classify(network)
  {
    if Blank(query) {
      return Ok(EmptyResponse), None;
    }
    var url := BuildSearchUrl(query);
    request := Some(url.params);
    r := Classify(network);
  }
}

=== FILE: lists.dfy ===
/**
 * The two array methods the bookmark store is written with:
 * `Array.prototype.filter` and `Array.prototype.findIndex`.
 */
module Lists {

  /** `a` can be obtained from `b` by deleting elements: order is kept. */
  predicate IsSubsequence<T(==)>(a: seq<T>, b: seq<T>) {
    if a == [] then true
    else if b == [] then false
    else if a[0] == b[0] then IsSubsequence(a[1..], b[1..])
    else IsSubsequence(a, b[1..])
  }

  /** Every element of a subsequence occurs in the sequence it was taken from. */
  lemma {:induction false} SubsequenceElements<T>(a: seq<T>, b: seq<T>)
    requires IsSubsequence(a, b)
    ensures forall x :: x in a ==> x in b
  {
    if a != [] && b != [] {
      if a[0] == b[0] {
        SubsequenceElements(a[1..], b[1..]);
        assert a == [a[0]] + a[1..];
      } else {
        SubsequenceElements(a, b[1..]);
      }
    }
  }

  /** `Array.prototype.filter`: the elements that pass `keep`, in their original order. */
  function Filter<T>(s: seq<T>, keep: T -> bool): (r: seq<T>)
    ensures forall i :: 0 <= i < |r| ==> keep(r[i])
  {
    if s == [] then []
    else if keep(s[0]) then [s[0]] + Filter(s[1..], keep) else Filter(s[1..], keep)
  }

  /** Filtering only drops elements: each passing element keeps its multiplicity. */
  lemma {:induction false} FilterMultiset<T>(s: seq<T>, keep: T -> bool)
    ensures multiset(Filter(s, keep)) <= multiset(s)
    ensures forall x | x in s && keep(x) :: multiset(Filter(s, keep))[x] == multiset(s)[x]
  {
    if s != [] {
      FilterMultiset(s[1..], keep);
      assert s == [s[0]] + s[1..];
    }
  }

  /** The filtered sequence keeps the original order. */
  lemma {:induction false} FilterIsSubsequence<T>(s: seq<T>, keep: T -> bool)
    ensures IsSubsequence(Filter(s, keep), s)
  {
    if s != [] {
      FilterIsSubsequence(s[1..], keep);
      var tail := Filter(s[1..], keep);
      if keep(s[0]) {
        assert ([s[0]] + tail)[1..] == tail;
      } else {
        assert tail == [] || tail[0] != s[0];
      }
    }
  }

  /** Filtering never lengthens a sequence. */
  lemma {:induction false} FilterLength<T>(s: seq<T>, keep: T -> bool)
    ensures |Filter(s, keep)| <= |s|
  {
    if s != [] {
      FilterLength(s[1..], keep);
    }
  }

  /** When every element passes, filtering returns the input itself. */
  lemma {:induction false} FilterKeepsAll<T>(s: seq<T>, keep: T -> bool)
    requires forall i :: 0 <= i < |s| ==> keep(s[i])
    ensures Filter(s, keep) == s
  {
    if s != [] {
      FilterKeepsAll(s[1..], keep);
      assert s == [s[0]] + s[1..];
    }
  }

  /** When some element fails, the filtered sequence is strictly shorter. */
  lemma {:induction false} FilterDropsFailing<T>(s: seq<T>, keep: T -> bool, k: nat)
    requires k < |s| && !keep(s[k])
    ensures |Filter(s, keep)| < |s|
  {
    FilterLength(s[1..], keep);
    if k > 0 {
      FilterDropsFailing(s[1..], keep, k - 1);
    }
  }

  /** Nothing is dropped exactly when every element passes. */
  lemma FilterDropsNothingIff<T>(s: seq<T>, keep: T -> bool)
    ensures |Filter(s, keep)| == |s| <==> forall i :: 0 <= i < |s| ==> keep(s[i])
  {
    if forall i :: 0 <= i < |s| ==> keep(s[i]) {
      FilterKeepsAll(s, keep);
    } else {
      var k :| 0 <= k < |s| && !keep(s[k]);
      FilterDropsFailing(s, keep, k);
    }
  }

  /** Filtering twice with the same test is filtering once. */
  lemma FilterIdempotent<T>(s: seq<T>, keep: T -> bool)
    ensures Filter(Filter(s, keep), keep) == Filter(s, keep)
  {
    FilterKeepsAll(Filter(s, keep), keep);
  }

  /** Filtering distributes over concatenation. */
  lemma {:induction false} FilterConcat<T>(a: seq<T>, b: seq<T>, keep: T -> bool)
    ensures Filter(a + b, keep) == Filter(a, keep) + Filter(b, keep)
  {
    if a != [] {
      assert (a + b)[1..] == a[1..] + b;
      FilterConcat(a[1..], b, keep);
    } else {
      assert a + b == b;
    }
  }

  /** Membership after filtering: kept exactly when present before and passing the test. */
  lemma FilterMembership<T>(s: seq<T>, keep: T -> bool, x: T)
    ensures x in Filter(s, keep) <==> x in s && keep(x)
  {
    var r := Filter(s, keep);
    FilterMultiset(s, keep);
    assert x in r <==> x in multiset(r);
    assert x in s <==> x in multiset(s);
  }

  /**
   * `Array.prototype.findIndex`: the index of the first element satisfying
   * `p`, or -1 when there is none.
   */
  function FindIndex<T>(s: seq<T>, p: T -> bool): (k: int)
    ensures -1 <= k < |s|
    ensures k == -1 <==> forall i :: 0 <= i < |s| ==> !p(s[i])
    ensures 0 <= k ==> p(s[k]) && forall i :: 0 <= i < k ==> !p(s[i])
  {
    if s == [] then -1
    else if p(s[0]) then 0
    else
      var k := FindIndex(s[1..], p);
      if k == -1 then -1 else k + 1
  }
}

=== FILE: search.dfy ===
/**
 * The search orchestrator (`fetchRepositories` in the app component): the
 * results, the loading flag and the error message, updated when the
 * debounced query changes and again when the request settles. Requests are
 * not tagged with their query: each settlement is applied in the order it
 * arrives, whatever the query is by then.
 */
module Search {
  import opened Wrappers
  import opened Text
  import opened Repositories
  import GitHub

  /** The three pieces of state `fetchRepositories` writes. */
  datatype SearchState = SearchState(repositories: seq<Repository>, isLoading: bool, error: Option<string>)

  /** The state before anything happens: no results, not loading, no error. */
  const Initial := SearchState([], false, None)

  /**
   * The part of `fetchRepositories` before the `await`. A blank query clears
   * the results and the error and returns; any other query sets the loading
   * flag and clears the error.
   */
  function Started(s: SearchState, query: string): (t: SearchState)
    ensures t.error == None
    ensures Blank(query) ==> t.repositories == [] && t.isLoading == s.isLoading
    ensures !Blank(query) ==> t.isLoading && t.repositories == s.repositories
  {
    if Blank(query) then s.(repositories := [], error := None)
    else s.(isLoading := true, error := None)
  }

  /**
   * The part after the `await`: the items of a response become the results;
   * a rejection sets the error and clears the results; either way the
   * loading flag ends false.
   */
  function Settled(s: SearchState, result: Result<SearchResponse, string>): (t: SearchState)
    ensures !t.isLoading
    ensures result.Ok? ==> t.repositories == result.value.items && t.error == s.error
    ensures result.Err? ==> t.repositories == [] && t.error == Some(result.error)
  {
    match result
    case Ok(data) => s.(repositories := data.items, isLoading := false)
    case Err(message) => s.(error := Some(message), repositories := [], isLoading := false)
  }

  /** While loading, no error is set. */
  predicate NoErrorWhileLoading(s: SearchState) {
    s.isLoading ==> s.error.None?
  }

  /** What can happen to the state: a new debounced query, or some request settling. */
  datatype Event = QueryChanged(query: string) | RequestSettled(result: Result<SearchResponse, string>)

  function Step(s: SearchState, e: Event): (t: SearchState)
    ensures e.QueryChanged? ==> t.error == None
    ensures e.RequestSettled? ==> !t.isLoading
    ensures NoErrorWhileLoading(s) ==> NoErrorWhileLoading(t)
  {
    match e
    case QueryChanged(q) => Started(s, q)
    case RequestSettled(r) => Settled(s, r)
  }

  /**
   * The state after a sequence of events, in the order they happen. Whatever
   * happens, and in whatever order requests settle, no error is set while
   * loading.
   */
  function Run(s: SearchState, events: seq<Event>): (t: SearchState)
    ensures NoErrorWhileLoading(s) ==> NoErrorWhileLoading(t)
    decreases |events|
  {
    if events == [] then s else Run(Step(s, events[0]), events[1..])
  }

  /**
   * A request that runs to completion before anything else happens: the
   * state depends only on how it settled, not on what came before.
   */
  lemma SequentialFetch(s: SearchState, query: string, result: Result<SearchResponse, string>)
    requires !Blank(query)
    ensures Settled(Started(s, query), result) ==
      match result
      case Ok(data) => SearchState(data.items, false, None)
      case Err(m) => SearchState([], false, Some(m))
  {
  }

  /** The state after a run ends with the settlement of a request: not loading. */
  lemma {:induction false} RunEndingInSettlement(s: SearchState, events: seq<Event>, r: Result<SearchResponse, string>)
    ensures !Run(s, events + [RequestSettled(r)]).isLoading
    ensures Run(s, events + [RequestSettled(r)]) == Settled(Run(s, events), r)
    decreases |events|
  {
    if events != [] {
      assert (events + [RequestSettled(r)])[1..] == events[1..] + [RequestSettled(r)];
      RunEndingInSettlement(Step(s, events[0]), events[1..], r);
    } else {
      assert [RequestSettled(r)][1..] == [];
    }
  }

  /**
   * No staleness check: the request for `first` is sent, then the one for
   * `second`; when the first settles last, its items replace those of the
   * second although the query is now `second`.
   */
  lemma StaleResponseWins(s: SearchState, first: string, second: string, late: SearchResponse, early: SearchResponse)
    requires !Blank(first) && !Blank(second)
    ensures Run(s, [QueryChanged(first), QueryChanged(second),
      RequestSettled(Ok(early)), RequestSettled(Ok(late))]).repositories == late.items
  {
    var events := [QueryChanged(first), QueryChanged(second), RequestSettled(Ok(early))];
    RunEndingInSettlement(s, events, Ok(late));
    assert events + [RequestSettled(Ok(late))] ==
      [QueryChanged(first), QueryChanged(second), RequestSettled(Ok(early)), RequestSettled(Ok(late))];
  }

  /** A query and then a blank query: the loading flag set by the first stays set. */
  lemma QueryThenBlank(s: SearchState, query: string, blank: string)
    requires !Blank(query) && Blank(blank)
    ensures Run(s, [QueryChanged(query), QueryChanged(blank)]) == SearchState([], true, None)
  {
    var events := [QueryChanged(query), QueryChanged(blank)];
    assert Run(s, events) == Run(Started(s, query), [QueryChanged(blank)]);
    assert Run(Started(s, query), [QueryChanged(blank)]) == Run(Started(Started(s, query), blank), []);
  }

  /**
   * Clearing the query while a request is in flight does not stop it: the
   * loading flag stays set, and the late items are shown for a blank query.
   */
  lemma BlankQueryDoesNotCancel(s: SearchState, query: string, blank: string, late: SearchResponse)
    requires !Blank(query) && Blank(blank)
    ensures Run(s, [QueryChanged(query), QueryChanged(blank)]).isLoading
    ensures Run(s, [QueryChanged(query), QueryChanged(blank), RequestSettled(Ok(late))]).repositories == late.items
  {
    QueryThenBlank(s, query, blank);
    var events := [QueryChanged(query), QueryChanged(blank)];
    RunEndingInSettlement(s, events, Ok(late));
    assert events + [RequestSettled(Ok(late))] == [QueryChanged(query), QueryChanged(blank), RequestSettled(Ok(late))];
  }

  /**
   * Overlapping requests: the first to settle clears the loading flag while
   * the other is still in flight, and a failure followed by a success leaves
   * the error set beside non-empty results.
   */
  lemma OverlappingRequests(s: SearchState, first: string, second: string, message: string, late: SearchResponse)
    requires !Blank(first) && !Blank(second)
    ensures !Run(s, [QueryChanged(first), QueryChanged(second), RequestSettled(Err(message))]).isLoading
    ensures var t := Run(s, [QueryChanged(first), QueryChanged(second), RequestSettled(Err(message)),
      RequestSettled(Ok(late))]);
      t.error == Some(message) && t.repositories == late.items
  {
    var events := [QueryChanged(first), QueryChanged(second)];
    RunEndingInSettlement(s, events, Err(message));
    var events3 := events + [RequestSettled(Err(message))];
    assert events3 == [QueryChanged(first), QueryChanged(second), RequestSettled(Err(message))];
    RunEndingInSettlement(s, events3, Ok(late));
    assert events3 + [RequestSettled(Ok(late))] ==
      [QueryChanged(first), QueryChanged(second), RequestSettled(Err(message)), RequestSettled(Ok(late))];
  }

  /** The orchestrator's state, with the setters `fetchRepositories` calls. */
  class SearchOrchestrator {
    var repositories: seq<Repository>
    var isLoading: bool
    var error: Option<string>

    function State(): SearchState
      reads this
    {
      SearchState(repositories, isLoading, error)
    }

    constructor ()
      ensures State() == Initial
    {
      repositories := [];
      isLoading := false;
      error := None;
    }

    /** The debounced query changed: the steps up to the `await`; says whether a request goes out. */
    method Start(query: string) returns (dispatched: bool)
      modifies this
      ensures dispatched <==> !Blank(query)
      ensures State() == Started(old(State()), query)
    {
      if Blank(query) {
        repositories := [];
        error := None;
        return false;
      }
      isLoading := true;
      error := None;
      dispatched := true;
    }

    /** A request settled: the `try`, `catch` and `finally` after the `await`. */
    method Finish(result: Result<SearchResponse, string>)
      modifies this
      ensures State() == Settled(old(State()), result)
    {
      match result {
        case Ok(data) =>
          repositories := data.items;
        case Err(message) =>
          error := Some(message);
          repositories := [];
      }
      isLoading := false;
    }

    /**
     * `fetchRepositories` run to completion with nothing in between: the
     * query goes to the search service, whose request meets the outcome
     * `network`, and the settlement is applied.
     */
    method FetchRepositories(query: string, network: GitHub.Outcome)
      modifies this
      ensures Blank(query) ==> repositories == [] && error == None && isLoading == old(isLoading)
      ensures !Blank(query) ==> !isLoading
      ensures !Blank(query) && GitHub.Classify(network).Ok? ==>
        repositories == GitHub.Classify(network).value.items && error == None
      ensures !Blank(query) && GitHub.Classify(network).Err? ==>
        repositories == [] && error == Some(GitHub.Classify(network).error)
    {
      var dispatched := Start(query);
      if dispatched {
        var result, _ := GitHub.SearchRepositories(query, network);
        Finish(result);
      }
    }
  }
}

=== FILE: text.dfy ===
/**
 * The two pieces of JavaScript string handling the core relies on:
 * `String.prototype.trim` (a query is blank when it trims to "") and the
 * decimal rendering of a non-negative integer (`Number.prototype.toString`).
 */
module Text {

  /** ECMAScript WhiteSpace and LineTerminator code points: what `trim` strips. */
  predicate IsWhiteSpace(c: char) {
    || c == '\t' || c == '\n' || c == '\U{000B}' || c == '\U{000C}' || c == '\r'
    || c == ' ' || c == '\U{00A0}' || c == '\U{1680}'
    || ('\U{2000}' <= c <= '\U{200A}')
    || c == '\U{2028}' || c == '\U{2029}' || c == '\U{202F}' || c == '\U{205F}'
    || c == '\U{3000}' || c == '\U{FEFF}'
  }

  /** Every character of `s` is white space (true of ""). */
  predicate AllWhiteSpace(s: string) {
    forall i :: 0 <= i < |s| ==> IsWhiteSpace(s[i])
  }

  /** The number of white-space characters `s` starts with. */
  function LeadingWhiteSpace(s: string): (n: nat)
    ensures n <= |s|
    ensures forall i :: 0 <= i < n ==> IsWhiteSpace(s[i])
    ensures n == |s| || !IsWhiteSpace(s[n])
  {
    if s != [] && IsWhiteSpace(s[0]) then
      var m := LeadingWhiteSpace(s[1..]);
      assert forall i :: 0 < i < 1 + m ==> s[i] == s[1..][i - 1];
      1 + m
    else 0
  }

  /** The number of white-space characters `s` ends with. */
  function TrailingWhiteSpace(s: string): (n: nat)
    ensures n <= |s|
    ensures forall i :: |s| - n <= i < |s| ==> IsWhiteSpace(s[i])
    ensures n == |s| || !IsWhiteSpace(s[|s| - n - 1])
  {
    if s != [] && IsWhiteSpace(s[|s| - 1]) then
      var m := TrailingWhiteSpace(s[..|s| - 1]);
      assert forall i :: |s| - 1 - m <= i < |s| - 1 ==> s[i] == s[..|s| - 1][i];
      1 + m
    else 0
  }

  /** The characters of `t` from `n` on are all white space. */
  lemma WhiteSpaceTail(t: string, n: nat)
    requires n <= |t| && forall i :: n <= i < |t| ==> IsWhiteSpace(t[i])
    ensures AllWhiteSpace(t[n..])
  {
    forall i | 0 <= i < |t| - n ensures IsWhiteSpace(t[n..][i]) {
      assert t[n..][i] == t[n + i];
    }
  }

  /**
   * `String.prototype.trim`: the part of `s` after its leading white space
   * and before its trailing white space, with no white space left on either end.
   */
  function Trim(s: string): (r: string)
    ensures var k := LeadingWhiteSpace(s);
      && k + |r| <= |s|
      && r == s[k..k + |r|]
      && AllWhiteSpace(s[..k])
      && AllWhiteSpace(s[k + |r|..])
    ensures r == [] || (!IsWhiteSpace(r[0]) && !IsWhiteSpace(r[|r| - 1]))
  {
    var k := LeadingWhiteSpace(s);
    var t := s[k..];
    var r := t[..|t| - TrailingWhiteSpace(t)];
    WhiteSpaceTail(t, |r|);
    assert s[k + |r|..] == t[|r|..];
    assert r == [] || r[0] == s[k];
    r
  }

  /** `!s.trim()`: the trimmed string is "", which is falsy; so exactly when `s` is all white space. */
  function Blank(s: string): (b: bool)
    ensures b <==> AllWhiteSpace(s)
  {
    var r := Trim(s);
    var k := LeadingWhiteSpace(s);
    assert r == [] ==> AllWhiteSpace(s) by {
      if r == [] {
        forall i | 0 <= i < |s| ensures IsWhiteSpace(s[i]) {
          if i < k {
            assert s[i] == s[..k][i];
          } else {
            assert s[i] == s[k..][i - k];
          }
        }
      }
    }
    assert r != [] ==> s[k] == r[0];
    r == []
  }

  predicate IsDigit(c: char) {
    '0' <= c <= '9'
  }

  predicate AllDigits(s: string) {
    forall i :: 0 <= i < |s| ==> IsDigit(s[i])
  }

  function DigitChar(d: nat): (c: char)
    requires d < 10
    ensures IsDigit(c) && c as int - '0' as int == d
  {
    ['0', '1', '2', '3', '4', '5', '6', '7', '8', '9'][d]
  }

  /** The decimal rendering of `n`, as JavaScript prints a non-negative integer. */
  function NatToString(n: nat): (s: string)
    ensures s != [] && AllDigits(s)
    ensures s[0] == '0' ==> n == 0 && s == "0"
  {
    if n < 10 then [DigitChar(n)] else NatToString(n / 10) + [DigitChar(n % 10)]
  }

  /** The number a string of decimal digits denotes. */
  function DecimalValue(s: string): nat
    requires AllDigits(s)
  {
    if s == [] then 0 else DecimalValue(s[..|s| - 1]) * 10 + (s[|s| - 1] as int - '0' as int)
  }

  /** Reading the rendering of `n` back gives `n`. */
  lemma {:induction false} DecimalRoundTrip(n: nat)
    ensures DecimalValue(NatToString(n)) == n
  {
    if n >= 10 {
      DecimalRoundTrip(n / 10);
      var s := NatToString(n);
      assert s[..|s| - 1] == NatToString(n / 10);
    }
  }

  /** The longest prefix of `s` made of digits. */
  function LeadingDigits(s: string): (r: string)
    ensures AllDigits(r) && |r| <= |s| && r == s[..|r|]
  {
    if s != [] && IsDigit(s[0]) then
      var tail := LeadingDigits(s[1..]);
      assert s[..|tail| + 1] == [s[0]] + s[1..][..|tail|];
      [s[0]] + tail
    else []
  }

  /** A run of digits followed by a non-digit is exactly the leading digits. */
  lemma {:induction false} LeadingDigitsOfConcat(d: string, rest: string)
    requires AllDigits(d)
    requires rest != [] && !IsDigit(rest[0])
    ensures LeadingDigits(d + rest) == d
  {
    if d != [] {
      assert (d + rest)[1..] == d[1..] + rest;
      LeadingDigitsOfConcat(d[1..], rest);
    }
  }
}

=== FILE: types.dfy ===
/** The records the search API returns, as the client's types declare them. */
module Repositories {
  import opened Wrappers

  datatype Owner = Owner(login: string, avatarUrl: string)

  /** The fields of a repository the core never inspects; they travel with it unchanged. */
  datatype Details = Details(
    description: Option<string>,
    htmlUrl: string,
    stargazersCount: nat,
    language: Option<string>,
    owner: Owner)

  /** One search result: numeric id, short name, `owner/name`, and the rest. */
  datatype Repository = Repository(id: int, name: string, fullName: string, details: Details)

  /** The body of a successful search: total count, truncation flag, the ranked items. */
  datatype SearchResponse = SearchResponse(totalCount: nat, incompleteResults: bool, items: seq<Repository>)
}

=== FILE: view.dfy ===
/**
 * The derived view of the app component: which list is displayed, which
 * empty-state message is chosen, the result-count label, whether the filter
 * toggle is shown, and what the results section renders, in order.
 */
module View {
  import opened Wrappers
  import opened Text
  import opened Repositories
  import opened Search

  /** The filter mode: every search result, or the bookmarks only. */
  datatype FilterMode = All | Bookmarked

  /** `filteredRepositories`: the bookmarks in bookmarked mode, the search results otherwise. */
  function FilteredRepositories(mode: FilterMode, repositories: seq<Repository>, bookmarks: seq<Repository>): (r: seq<Repository>)
    ensures mode == Bookmarked ==> r == bookmarks
    ensures mode == All ==> r == repositories
  {
    if mode == Bookmarked then bookmarks else repositories
  }

  /** `error` is truthy: set, and not the empty string. */
  predicate ErrorShown(error: Option<string>) {
    error.Some? && error.value != ""
  }

  /**
   * Bookmarked mode shows nothing although the last search found something:
   * exactly in bookmarked mode, not loading, with no bookmarks and some
   * search results.
   */
  function ShouldShowBookmarkedEmpty(s: SearchState, mode: FilterMode, bookmarks: seq<Repository>): (b: bool)
    ensures b <==> mode == Bookmarked && !s.isLoading && bookmarks == [] && s.repositories != []
  {
    && mode == Bookmarked
    && !s.isLoading
    && |FilteredRepositories(mode, s.repositories, bookmarks)| == 0
    && |s.repositories| > 0
  }

  /** A search for a query with some visible character found nothing and did not fail. */
  function ShouldShowSearchEmpty(s: SearchState, query: string): (b: bool)
    ensures b <==> !s.isLoading && !AllWhiteSpace(query) && s.repositories == [] && !ErrorShown(s.error)
  {
    !s.isLoading && !Blank(query) && |s.repositories| == 0 && !ErrorShown(s.error)
  }

  /** Nothing has been searched for yet: the query is all white space and there are no results. */
  function ShouldShowInitialState(s: SearchState, query: string): (b: bool)
    ensures b <==> !s.isLoading && AllWhiteSpace(query) && s.repositories == []
  {
    !s.isLoading && Blank(query) && |s.repositories| == 0
  }

  /** The filter toggle appears when there are search results or bookmarks. */
  function ShowFilterToggle(repositories: seq<Repository>, bookmarks: seq<Repository>): (b: bool)
    ensures b <==> repositories != [] || bookmarks != []
  {
    |repositories| > 0 || |bookmarks| > 0
  }

  /** The text above the list: the count, "result" or "results", and the bookmarked note. */
  function CountLabel(n: nat, mode: FilterMode): (text: string)
    ensures var digits := NatToString(n);
      |text| > |digits| && text[..|digits|] == digits && text[|digits|] == ' '
  {
    NatToString(n) + " result" + (if n != 1 then "s" else "") + (if mode == Bookmarked then " (bookmarked)" else "")
  }

  const InitialMessage := "Start typing to search GitHub repositories"
  const NoResultsMessage := "No repositories found. Try a different search term."
  const NoBookmarksMessage := "No bookmarked repositories in current search results."

  datatype Icon = SearchIcon | BookmarkIcon | ErrorIcon

  /** What the results section can render. */
  datatype Element = EmptyState(message: string, icon: Icon) | Spinner | Count(text: string) | List(items: seq<Repository>)

  /**
   * The empty-state messages shown when neither loading nor failed, in render
   * order; since their conditions exclude one another, at most one shows.
   */
  function EmptyStates(s: SearchState, mode: FilterMode, query: string, bookmarks: seq<Repository>): (r: seq<Element>)
    ensures |r| <= 1
    ensures forall x | x in r :: x.EmptyState?
    ensures EmptyState(InitialMessage, SearchIcon) in r <==> ShouldShowInitialState(s, query)
    ensures EmptyState(NoResultsMessage, SearchIcon) in r <==> ShouldShowSearchEmpty(s, query)
    ensures EmptyState(NoBookmarksMessage, BookmarkIcon) in r <==> ShouldShowBookmarkedEmpty(s, mode, bookmarks)
    ensures r == [] <==>
      !ShouldShowInitialState(s, query) && !ShouldShowSearchEmpty(s, query) && !ShouldShowBookmarkedEmpty(s, mode, bookmarks)
  {
    EmptyStatesExclusive(s, mode, query, bookmarks);
    (if ShouldShowInitialState(s, query) then [EmptyState(InitialMessage, SearchIcon)] else [])
    + (if ShouldShowSearchEmpty(s, query) then [EmptyState(NoResultsMessage, SearchIcon)] else [])
    + (if ShouldShowBookmarkedEmpty(s, mode, bookmarks) then [EmptyState(NoBookmarksMessage, BookmarkIcon)] else [])
  }

  /** The count line and the list, shown when the displayed list is not empty. */
  function Listing(filtered: seq<Repository>, mode: FilterMode): (r: seq<Element>)
    ensures List(filtered) in r <==> filtered != []
    ensures forall x | x in r :: x.Count? || x.List?
  {
    if |filtered| > 0 then [Count(CountLabel(|filtered|, mode)), List(filtered)] else []
  }

  /** The results section, element by element, in the order it renders them. */
  function Results(s: SearchState, mode: FilterMode, query: string, bookmarks: seq<Repository>): (r: seq<Element>)
    ensures Spinner in r <==> s.isLoading
    ensures ErrorShown(s.error) ==> |r| > 0 && r[0] == EmptyState(s.error.value, ErrorIcon)
  {
    (if ErrorShown(s.error) then [EmptyState(s.error.value, ErrorIcon)] else [])
    + (if s.isLoading then [Spinner] else [])
    + (if !s.isLoading && !ErrorShown(s.error) then
         EmptyStates(s, mode, query, bookmarks) + Listing(FilteredRepositories(mode, s.repositories, bookmarks), mode)
       else [])
  }

  /**
   * The three empty-state conditions exclude one another: the initial state
   * needs a blank query and the no-results state a non-blank one, and both
   * need no results, which the bookmarked-empty state rules out.
   */
  lemma EmptyStatesExclusive(s: SearchState, mode: FilterMode, query: string, bookmarks: seq<Repository>)
    ensures !(ShouldShowInitialState(s, query) && ShouldShowSearchEmpty(s, query))
    ensures !(ShouldShowInitialState(s, query) && ShouldShowBookmarkedEmpty(s, mode, bookmarks))
    ensures !(ShouldShowSearchEmpty(s, query) && ShouldShowBookmarkedEmpty(s, mode, bookmarks))
  {
  }

  /** The label starts with the count, which reads back as the number of items. */
  lemma {:induction false} CountLabelNumber(n: nat, mode: FilterMode)
    ensures LeadingDigits(CountLabel(n, mode)) == NatToString(n)
    ensures DecimalValue(LeadingDigits(CountLabel(n, mode))) == n
  {
    var rest := " result" + (if n != 1 then "s" else "") + (if mode == Bookmarked then " (bookmarked)" else "");
    assert CountLabel(n, mode) == NatToString(n) + rest;
    LeadingDigitsOfConcat(NatToString(n), rest);
    DecimalRoundTrip(n);
  }

  /** The label ends with " (bookmarked)" exactly in bookmarked mode; otherwise it ends with the word. */
  lemma CountLabelSuffix(n: nat, mode: FilterMode)
    ensures var l := CountLabel(n, mode);
      mode == Bookmarked <==> |l| >= 13 && l[|l| - 13..] == " (bookmarked)"
    ensures var l := CountLabel(n, mode);
      mode == All ==> l[|l| - 1] == (if n == 1 then 't' else 's')
    ensures var l := CountLabel(n, mode);
      mode == Bookmarked ==> l[|l| - 14] == (if n == 1 then 't' else 's')
  {
    var l := CountLabel(n, mode);
    if mode == All {
      assert l[|l| - 1] != ')';
    }
  }

  /** Whenever the list is on screen, so is the filter toggle. */
  lemma ListImpliesToggle(s: SearchState, mode: FilterMode, query: string, bookmarks: seq<Repository>)
    ensures (exists xs :: List(xs) in Results(s, mode, query, bookmarks)) ==> ShowFilterToggle(s.repositories, bookmarks)
  {
  }

  /** With an error set, only the error message is rendered. */
  lemma ResultsOnError(s: SearchState, mode: FilterMode, query: string, bookmarks: seq<Repository>)
    requires NoErrorWhileLoading(s) && ErrorShown(s.error)
    ensures Results(s, mode, query, bookmarks) == [EmptyState(s.error.value, ErrorIcon)]
  {
  }

  /** While loading, only the spinner is rendered. */
  lemma ResultsWhileLoading(s: SearchState, mode: FilterMode, query: string, bookmarks: seq<Repository>)
    requires NoErrorWhileLoading(s) && s.isLoading
    ensures Results(s, mode, query, bookmarks) == [Spinner]
  {
  }

  /** The error message is rendered exactly when an error is shown. */
  lemma ResultsErrorMessage(s: SearchState, mode: FilterMode, query: string, bookmarks: seq<Repository>)
    ensures var r := Results(s, mode, query, bookmarks);
      (exists m :: EmptyState(m, ErrorIcon) in r) <==> ErrorShown(s.error)
  {
    var r := Results(s, mode, query, bookmarks);
    if !s.isLoading && !ErrorShown(s.error) {
      var e := EmptyStates(s, mode, query, bookmarks);
      var l := Listing(FilteredRepositories(mode, s.repositories, bookmarks), mode);
      assert r == e + l;
      assert forall x :: x in r <==> x in e || x in l;
    } else {
      assert forall x | x in r :: x.Spinner? || x == EmptyState(s.error.value, ErrorIcon);
    }
  }

  /**
   * Each empty-state message is rendered exactly when no error is shown and
   * its own condition holds (each condition already excludes loading).
   */
  lemma ResultsEmptyStateMessages(s: SearchState, mode: FilterMode, query: string, bookmarks: seq<Repository>)
    ensures var r := Results(s, mode, query, bookmarks);
      && (EmptyState(InitialMessage, SearchIcon) in r <==> !ErrorShown(s.error) && ShouldShowInitialState(s, query))
      && (EmptyState(NoResultsMessage, SearchIcon) in r <==> !ErrorShown(s.error) && ShouldShowSearchEmpty(s, query))
      && (EmptyState(NoBookmarksMessage, BookmarkIcon) in r <==>
            !ErrorShown(s.error) && ShouldShowBookmarkedEmpty(s, mode, bookmarks))
  {
    var r := Results(s, mode, query, bookmarks);
    if !s.isLoading && !ErrorShown(s.error) {
      var e := EmptyStates(s, mode, query, bookmarks);
      var l := Listing(FilteredRepositories(mode, s.repositories, bookmarks), mode);
      assert r == e + l;
      assert forall x :: x in r <==> x in e || x in l;
    } else {
      assert forall x | x in r :: x.Spinner? || x == EmptyState(s.error.value, ErrorIcon);
    }
  }

  /**
   * The count and the list are rendered exactly when nothing is loading, no
   * error is shown and the displayed list is not empty; they are the last two
   * elements, and the label counts the displayed list.
   */
  lemma ResultsListing(s: SearchState, mode: FilterMode, query: string, bookmarks: seq<Repository>)
    ensures var r := Results(s, mode, query, bookmarks);
      var filtered := FilteredRepositories(mode, s.repositories, bookmarks);
      (List(filtered) in r <==> !s.isLoading && !ErrorShown(s.error) && filtered != [])
      && (List(filtered) in r ==>
            |r| >= 2 && r[|r| - 2..] == [Count(CountLabel(|filtered|, mode)), List(filtered)])
  {
    var r := Results(s, mode, query, bookmarks);
    var filtered := FilteredRepositories(mode, s.repositories, bookmarks);
    if !s.isLoading && !ErrorShown(s.error) {
      var e := EmptyStates(s, mode, query, bookmarks);
      assert r == e + Listing(filtered, mode);
      ListingComesLast(e, filtered, mode);
    } else {
      assert forall x | x in r :: x.EmptyState? || x.Spinner?;
    }
  }

  /** After any run of empty-state messages, the count and the list come last, when there is a list. */
  lemma ListingComesLast(e: seq<Element>, filtered: seq<Repository>, mode: FilterMode)
    requires forall x | x in e :: x.EmptyState?
    ensures var r := e + Listing(filtered, mode);
      (List(filtered) in r <==> filtered != [])
      && (filtered != [] ==> |r| >= 2 && r[|r| - 2..] == [Count(CountLabel(|filtered|, mode)), List(filtered)])
  {
    var r := e + Listing(filtered, mode);
    if filtered != [] {
      assert r[|r| - 2..] == Listing(filtered, mode);
      assert r[|r| - 1] == List(filtered);
    } else {
      assert r == e;
    }
  }


  /**
   * The render is not a single choice by priority: in bookmarked mode with a
   * blank query and no search results, the initial prompt and the bookmark
   * list are both rendered, the prompt first.
   */
  lemma InitialPromptBesideBookmarks(s: SearchState, query: string, bookmarks: seq<Repository>)
    requires !s.isLoading && !ErrorShown(s.error) && Blank(query) && s.repositories == [] && bookmarks != []
    ensures Results(s, Bookmarked, query, bookmarks) ==
      [EmptyState(InitialMessage, SearchIcon), Count(CountLabel(|bookmarks|, Bookmarked)), List(bookmarks)]
  {
  }

  /** A blank query, when nothing is loading, leaves only the initial prompt in the search view. */
  lemma BlankQueryShowsPrompt(s: SearchState, query: string, bookmarks: seq<Repository>)
    requires !s.isLoading && Blank(query)
    ensures Results(Started(s, query), All, query, bookmarks) == [EmptyState(InitialMessage, SearchIcon)]
  {
  }

  /** A search that settles with two items shows "2 results" and both items. */
  lemma TwoResultsShown(s: SearchState, query: string, data: SearchResponse, a: Repository, b: Repository, bookmarks: seq<Repository>)
    requires !Blank(query) && data.items == [a, b]
    ensures Results(Settled(Started(s, query), Ok(data)), All, query, bookmarks) == [Count("2 results"), List([a, b])]
  {
    var t := Settled(Started(s, query), Ok(data));
    assert t.repositories == [a, b] && !t.isLoading && t.error == None;
    assert NatToString(2) == "2";
    assert CountLabel(2, All) == "2 results";
  }

  /**
   * Bookmarked mode with no bookmarks after a search that found something
   * shows the no-bookmarks message, not the no-results one.
   */
  lemma NoBookmarksMessageSelected(s: SearchState, query: string)
    requires !s.isLoading && !ErrorShown(s.error) && s.repositories != []
    ensures Results(s, Bookmarked, query, []) == [EmptyState(NoBookmarksMessage, BookmarkIcon)]
  {
  }
}

=== FILE: wrappers.dfy ===
/** Optional values and outcomes that carry an error message. */
module Wrappers {

  /** A value that may be missing (`null` in the source). */
  datatype Option<+T> = None | Some(value: T)

  /** The settled value of a promise: a value, or the message of the rejection. */
  datatype Result<+T, +E> = Ok(value: T) | Err(error: E)
}
